=== FILE: README.md ===
# ID-card request dashboard: a Dafny model of its client-side logic

The front-end lets an admin log in with an identifier, lists the pending
student ID-card requests and the accepted ("printed") history fetched from a
remote API, filters them by register number, and promotes a pending request
into the accepted collection. This project models the pure logic inside that
React code, with every HTTP result turned into an input value:

- `Requests` (`requests.dfy`): the raw list item, the normalised
  `StudentRequest` and its normalisation (id fallback to the array position,
  status forced by the endpoint, submitted date cut at the first `T`), and the
  promotion payload.
- `Dashboard` (`dashboard.dfy`): the dashboard state (`requests`,
  `acceptedCards`, `activeTab`, `searchTerm`), the visible list, the tab
  badges, tab and search changes, and the initial load of both lists.
- `Promote` (`promote.dfy`): `handlePrint` with its not-found guard and
  optimistic patch, and the inline "Tap to Inform" handler with its
  re-fetch of both lists and its fallback removal. `handlePrint` is defined
  in src/pages/Index.tsx but no element of the page calls it: the inline
  handler is the only promotion path the user can reach, so the optimistic
  patch is not what the running page does.
- `Login` (`login.dfy`): the login form's submit, split at its `await` into
  `BeginSubmit` and `Settle`, and the input's `onChange`.
- `ApiUrl` (`api_url.dfy`): the base-URL choice.
- `Strings`, `Seqs`, `Wrappers`: the JavaScript string and array operations
  the above rely on (`toLowerCase`, `includes`, `split`, `trim`,
  `Number.toString`, `filter`) and an `Option` type.

Network results are abstract inputs: `AcceptResponse` (ok, rejected with the
body's `error` field, or an exception), `RefreshOutcome` (a parsed list, a
non-ok response, or an exception), `LoadOutcome` for the initial fetches and
`LoginOutcome` for the login call. A response body that cannot be parsed is
represented by the outcome the code's `catch` turns it into.

Behaviour of the code worth noting:

- the id falls back to the position whenever `_id` is falsy, so an empty `_id`
  falls back too, not only a missing one;
- the inline handler awaits the pending re-fetch before it starts the accepted
  one, so an exception in the first skips the second; when the accepted
  re-fetch throws after a successful pending re-fetch, the fallback removal is
  applied to the freshly fetched pending list;
- the initial load does not test `res.ok`: any response whose body parses to
  an array is used;
- only `handlePrint` has a not-found guard; the inline handler always sends
  the payload of the card it was clicked on.

## Model

| member | source | states |
|---|---|---|
| `ApiUrl.Resolve` | src/lib/utils.ts:7-10 | a configured value (not null/undefined) is used as is; otherwise hostname `localhost` gives `http://localhost:5000` and no window or any other hostname gives the remote URL |
| `ApiUrl.ResolveThreeOutcomes` | src/lib/utils.ts:7-10 | the result is the configured value, the local URL or the remote URL, and without a configured value it is the local URL exactly when the hostname is `localhost` |
| `ApiUrl.EmptyConfiguredIsKept` | src/lib/utils.ts:7 | `??` keeps an empty configured URL instead of falling back |
| `Requests.SubmittedDate` | src/pages/Index.tsx:60 | the date is a non-empty prefix of `createdAt` holding no `T` and ending at the first `T` or at the end; "N/A" when `createdAt` is absent, empty or starts with `T` |
| `Requests.SubmittedDateOfIsoStamp` | src/pages/Index.tsx:60 | for a stamp `date + "T" + time` the submitted date is exactly `date` |
| `Strings.PrefixBefore` | src/pages/Index.tsx:60 | `split("T")[0]` is the prefix of the string up to (not including) the first `T`, or the whole string |
| `Strings.PrefixBeforeSeparator` | src/pages/Index.tsx:60 | splitting `a + sep + b` gives back `a` when `a` holds no separator |
| `Requests.NormalizeItem` | src/pages/Index.tsx:49-62 | the id is a truthy `_id`, otherwise the decimal rendering of the index; status is forced by the source whatever the raw status; the eight submitted fields and `createdAt` are copied; the submitted date is derived from `createdAt` |
| `Requests.Normalize` | src/pages/Index.tsx:380-393 | normalising a list keeps its length and order, item `i` normalised at position `i`, every status forced to the source's status (the same mapping as lines 49-62, 71-84 and 401-414) |
| `Strings.NatToString` | src/pages/Index.tsx:50 | `index.toString()` is a non-empty string of decimal digits without a leading zero |
| `Strings.NatToStringRoundTrip` | src/pages/Index.tsx:50 | the positional fallback id reads back as the index |
| `Requests.FallbackIdsDistinct` | src/pages/Index.tsx:72 | with no usable `_id` in a list, the fallback ids are pairwise distinct |
| `Requests.NormalizeKeepsSubmittedFields` | src/pages/Index.tsx:401-414 | normalisation carries the raw item's eight submitted fields through to the payload |
| `Requests.PayloadOf` | src/pages/Index.tsx:105-114 | the accept payload carries the request's register number, name, dob, department, year, section, library code and reason (the same object as lines 356-365) |
| `Requests.PayloadExactlySubmittedFields` | src/pages/Index.tsx:105-114 | two requests give the same payload exactly when their eight submitted fields agree: id, status and dates are not sent |
| `Dashboard.Visible` | src/pages/Index.tsx:154-159 | a record is visible exactly when it is in the active tab's collection and its lower-cased register number contains the lower-cased term at some position; each visible record keeps its multiplicity |
| `Seqs.Filter` | src/pages/Index.tsx:154 | `filter` keeps exactly the elements passing the test, with their multiplicities |
| `Seqs.FilterConcat` | src/pages/Index.tsx:154 | filtering distributes over concatenation: the kept elements stay in collection order |
| `Seqs.FilterIdempotent` | src/pages/Index.tsx:154 | filtering twice with one test equals filtering once |
| `Strings.Lower` | src/pages/Index.tsx:155-157 | `toLowerCase` keeps the length and lower-cases each ASCII capital, leaving every other character |
| `Strings.Contains` | src/pages/Index.tsx:157 | `includes` always finds the empty term and finds nothing longer than the string |
| `Strings.ContainsIffOccurs` | src/pages/Index.tsx:155-157 | `includes` holds exactly when the term occurs at some position |
| `Dashboard.VisibleKeepsOrder` | src/pages/Index.tsx:154-159 | the visible list keeps collection order: for a collection `front + back` it is the visible part of `front` followed by that of `back` |
| `Dashboard.VisibleEmptyTerm` | src/pages/Index.tsx:154-159 | an empty search term shows the whole collection of the active tab |
| `Dashboard.VisibleIdempotent` | src/pages/Index.tsx:154-159 | applying the search filter to the visible list again changes nothing |
| `Dashboard.VisibleCaseInsensitive` | src/pages/Index.tsx:155-157 | terms that lower-case alike give the same visible list |
| `Dashboard.SwitchTab` | src/pages/Index.tsx:259 | a tab switch changes only the active tab |
| `Dashboard.SwitchTabAndBack` | src/pages/Index.tsx:259 | switching away and back restores the state and so the filtered list |
| `Dashboard.SetSearch` | src/pages/Index.tsx:248 | typing in the search box changes only the search term |
| `Dashboard.Counts` | src/pages/Index.tsx:172-177 | the badges are the unfiltered collection sizes, and the visible list is never longer than the active tab's badge |
| `Dashboard.CountsIgnoreView` | src/pages/Index.tsx:172-177 | neither the search term nor the active tab changes the badges |
| `Dashboard.LoadInto` | src/pages/Index.tsx:46-65 | a failed list fetch leaves the collection as it was; a parsed one replaces it with the normalised items, item `i` at position `i`, all of the source's status |
| `Dashboard.InitialLoad` | src/pages/Index.tsx:44-88 | each initial fetch fills only its own collection: pending records all pending, history records all printed |
| `Dashboard.InitialLoadIndependent` | src/pages/Index.tsx:44-88 | each collection depends only on its own initial fetch, never on the other one |
| `Promote.FindIndex` | src/pages/Index.tsx:94 | `find` yields the first record with the id, and nothing exactly when no record has it |
| `Promote.HandlePrint` | src/pages/Index.tsx:91-147 | unknown id: "Request not found." toast, no request, no change; otherwise the first match's payload is sent; a failed request changes nothing; success marks every record with the id printed, keeps all others and the length, and leaves `acceptedCards` alone |
| `Promote.MarkPrinted` | src/pages/Index.tsx:129-133 | the patch keeps the length, turns every record with the id into the same record with status printed and leaves every other record as it was |
| `Promote.MarkPrintedIdempotent` | src/pages/Index.tsx:129-133 | the optimistic patch applied twice equals once, and keeps every id in place |
| `Promote.RemoveId` | src/pages/Index.tsx:419-421 | the fallback removal keeps exactly the records with another id, with their multiplicities |
| `Promote.RemoveIdKeepsOrder` | src/pages/Index.tsx:419-421 | the removal keeps the remaining records in order: removing from `s + t` is removing from `s` and from `t` and joining the results |
| `Promote.RemoveAbsentId` | src/pages/Index.tsx:419-421 | removing an id no record has changes nothing |
| `Promote.RejectionAlert` | src/pages/Index.tsx:424-425 | a non-ok accept shows the body's non-empty `error`, otherwise "Error while moving request." |
| `Promote.Resync` | src/pages/Index.tsx:375-422 | a non-ok re-fetch leaves its collection unchanged; a pending re-fetch that throws removes the id from the current pending list and skips the rest; an accepted re-fetch that throws removes the id from the (possibly fresh) pending list |
| `Promote.ResyncAccepted` | src/pages/Index.tsx:397-421 | a non-ok accepted re-fetch changes nothing; a parsed one replaces `acceptedCards` with the normalised items, all printed, and keeps `requests`; one that throws sets `requests` to the fallback removal of the id from the current `requests` (order and duplicates of the rest kept) and keeps `acceptedCards` |
| `Promote.Inform` | src/pages/Index.tsx:350-431 | the clicked card's payload is always sent; an exception or rejection alerts and changes nothing; success opens the popup and re-synchronises |
| `Promote.InformFullResync` | src/pages/Index.tsx:375-416 | when both re-fetches succeed, both collections are the freshly normalised lists |
| `Promote.InformFallbackDropsId` | src/pages/Index.tsx:417-421 | whenever a re-fetch throws, no record with the promoted id remains in `requests`; when the pending re-fetch throws, every other local record stays |
| `Strings.Trim` | src/pages/Login.tsx:16 | `trim()` is the slice of the string between a blank prefix and a blank suffix; it is empty exactly for a blank string, and otherwise starts and ends with a character that is not white space |
| `Strings.TrimPadded` | src/pages/Login.tsx:16 | trimming a core with no white space at its ends, padded by white space on both sides, gives back the core |
| `Login.EditAdminId` | src/pages/Login.tsx:73-76 | an edit stores the new text and clears the error |
| `Login.BeginSubmit` | src/pages/Login.tsx:16-27 | a blank id sets "Admin ID is required" and issues no request; otherwise the form is loading and the untrimmed id is sent |
| `Login.Settle` | src/pages/Login.tsx:30-39 | success navigates to `/dashboard`; rejection sets the server's message; an exception sets the generic error; loading is cleared in every case |
| `Login.HandleSubmit` | src/pages/Login.tsx:14-40 | a whole submission: request sent exactly when the id is not blank, with the untrimmed id; success navigates to `/dashboard` and leaves the error as it was, a rejection shows the server message, an exception the generic text; loading cleared after any settlement |
| `Login.LoadingOnlyInFlight` | src/pages/Login.tsx:20-39 | loading is raised exactly when a request is issued and is false after any settlement |
| `Login.RejectionThenEdit` | src/pages/Login.tsx:73-76 | a rejection's message replaces the earlier error, and the next edit clears it |

## Left out

- HTTP, JSON parsing and `async` ordering: each response is an input value; requests are not retried and no cancellation exists in the code either.
- Stale responses arriving after the dashboard is unmounted, and two promotions of the same card in flight at once: the model applies one settled outcome at a time.
- React rendering, toasts and `alert` display, the preview dialog, the success popup's closing, the mobile menu and the tab and badge markup: presentation only. The model records which toast or alert is shown and whether the popup opens.
- `formatDateTime` (src/pages/Index.tsx:191-200): depends on JavaScript `Date` parsing and the local time zone.
- `getStatusColor` and `getInitials`: CSS class strings and display initials.
- `cn` (src/lib/utils.ts:4-6): a wrapper over `clsx` and `tailwind-merge`, which are not part of this model.
- src/main.tsx (routing and DOM start-up) and the auth context's `logout`, which is not part of this model.
- Strings.Lower, Dashboard.Visible: `toLowerCase` is modelled as ASCII lower-casing; the full Unicode case mapping is not modelled.
- Requests.NormalizeItem: raw fields are modelled as strings; a missing `registerNumber` (which would make the filter's `toLowerCase` throw) and non-string `_id` values are not modelled.
- Login.Settle: a rejected response without `message` sets the error to `undefined`; the model uses the empty string, which renders the same (no error line).

=== FILE: api_url.dfy ===
/** The backend base URL, resolved once at start-up. */
module ApiUrl {
  import opened Wrappers

  const LocalUrl: string := "http://localhost:5000"
  const RemoteUrl: string := "https://adminloadtimefix-backend.onrender.com"

  /** `configured` is `VITE_API_URL` (None when null or undefined);
      `hostname` is `window.location.hostname` (None when there is no window).
      The configured value wins through `??`, so even an empty one is used. */
  function Resolve(configured: Option<string>, hostname: Option<string>): (url: string)
    ensures configured.Some? ==> url == configured.value
    ensures configured.None? && hostname == Some("localhost") ==> url == LocalUrl
    ensures configured.None? && hostname != Some("localhost") ==> url == RemoteUrl
  {
    match configured
    case Some(value) => value
    case None =>
      if hostname.Some? && hostname.value == "localhost" then LocalUrl else RemoteUrl
  }

  /** The result is the configured value, the local URL or the remote URL,
      and the two defaults are reached only when nothing is configured. */
  lemma ResolveThreeOutcomes(configured: Option<string>, hostname: Option<string>)
    ensures Resolve(configured, hostname) in {LocalUrl, RemoteUrl} || Some(Resolve(configured, hostname)) == configured
    ensures configured.Some? ==> Resolve(configured, hostname) == configured.value
    ensures configured.None? ==> (Resolve(configured, hostname) == LocalUrl <==> hostname == Some("localhost"))
  {
  }

  /** Unlike `||`, `??` keeps an empty configured value. */
  lemma EmptyConfiguredIsKept(hostname: Option<string>)
    ensures Resolve(Some(""), hostname) == ""
  {
  }
}

=== FILE: dashboard.dfy ===
/** The admin dashboard's state and its read-only views: the two request
    collections, the active tab, the search term, the visible list and the
    tab badges, plus the initial load of both collections. */
module Dashboard {
  import opened Strings
  import opened Seqs
  import opened Requests

  datatype Tab = PendingTab | PrintedTab

  /** `requests` holds the pending collection, `acceptedCards` the printed one. */
  datatype State = State(
    requests: seq<StudentRequest>,
    acceptedCards: seq<StudentRequest>,
    activeTab: Tab,
    searchTerm: string)

  datatype TabCounts = TabCounts(pending: nat, printed: nat)

  /** The state before either list has arrived. */
  const Empty: State := State([], [], PendingTab, "")

  /** The collection a tab shows. */
  function Collection(st: State, tab: Tab): seq<StudentRequest> {
    match tab
    case PendingTab => st.requests
    case PrintedTab => st.acceptedCards
  }

  /** The search test: the lower-cased register number contains the
      lower-cased term. */
  predicate MatchesSearch(r: StudentRequest, term: string) {
    Contains(Lower(r.registerNumber), Lower(term))
  }

  function SearchFilter(term: string): StudentRequest -> bool {
    r => MatchesSearch(r, term)
  }

  /** `filteredRequests`: the active tab's records whose register number
      matches the search term, in collection order. */
  function Visible(st: State): (v: seq<StudentRequest>)
    ensures forall r ::
      r in v <==> r in Collection(st, st.activeTab)
                  && exists i :: OccursAt(Lower(r.registerNumber), Lower(st.searchTerm), i)
    ensures forall r ::
      multiset(v)[r] == (if MatchesSearch(r, st.searchTerm) then multiset(Collection(st, st.activeTab))[r] else 0)
  {
    var v := Filter(Collection(st, st.activeTab), SearchFilter(st.searchTerm));
    forall r | r in Collection(st, st.activeTab)
      ensures MatchesSearch(r, st.searchTerm) <==> exists i :: OccursAt(Lower(r.registerNumber), Lower(st.searchTerm), i)
    {
      ContainsIffOccurs(Lower(r.registerNumber), Lower(st.searchTerm));
    }
    v
  }

  /** An empty search term shows the whole collection of the active tab. */
  lemma VisibleEmptyTerm(st: State)
    requires st.searchTerm == ""
    ensures Visible(st) == Collection(st, st.activeTab)
  {
    var c := Collection(st, st.activeTab);
    forall i | 0 <= i < |c|
      ensures SearchFilter(st.searchTerm)(c[i])
    {
      ContainsEmpty(Lower(c[i].registerNumber));
    }
    FilterKeepsAll(c, SearchFilter(st.searchTerm));
  }

  /** Applying the search filter to the visible list changes nothing. */
  lemma VisibleIdempotent(st: State)
    ensures Filter(Visible(st), SearchFilter(st.searchTerm)) == Visible(st)
  {
    FilterIdempotent(Collection(st, st.activeTab), SearchFilter(st.searchTerm));
  }

  /** The search is case-insensitive: terms that lower-case alike show the
      same list. */
  lemma VisibleCaseInsensitive(st: State, term: string)
    requires Lower(term) == Lower(st.searchTerm)
    ensures Visible(st.(searchTerm := term)) == Visible(st)
  {
    var c := Collection(st, st.activeTab);
    FilterCongruent(c, SearchFilter(term), SearchFilter(st.searchTerm));
  }

  /** `setActiveTab`: only the tab changes; nothing is re-fetched. */
  function SwitchTab(st: State, tab: Tab): (r: State)
    ensures r.activeTab == tab
    ensures r.requests == st.requests && r.acceptedCards == st.acceptedCards
    ensures r.searchTerm == st.searchTerm
  {
    st.(activeTab := tab)
  }

  /** Switching to another tab and back shows the same filtered list as
      before: a tab switch neither re-fetches nor re-filters. */
  lemma SwitchTabAndBack(st: State, tab: Tab)
    ensures SwitchTab(SwitchTab(st, tab), st.activeTab) == st
    ensures Visible(SwitchTab(SwitchTab(st, tab), st.activeTab)) == Visible(st)
  {
  }

  /** `setSearchTerm` from the search box. */
  function SetSearch(st: State, term: string): (r: State)
    ensures r.searchTerm == term
    ensures r.requests == st.requests && r.acceptedCards == st.acceptedCards
    ensures r.activeTab == st.activeTab
  {
    st.(searchTerm := term)
  }

  /** `getTabCounts`: the badges show the unfiltered collection sizes. */
  function Counts(st: State): (c: TabCounts)
    ensures c.pending == |st.requests| && c.printed == |st.acceptedCards|
    ensures |Visible(st)| <= (if st.activeTab == PendingTab then c.pending else c.printed)
  {
    TabCounts(|st.requests|, |st.acceptedCards|)
  }

  /** Neither the search term nor the active tab affects the badges. */
  lemma CountsIgnoreView(st: State, tab: Tab, term: string)
    ensures Counts(SetSearch(SwitchTab(st, tab), term)) == Counts(st)
  {
  }

  /** What one of the two initial list fetches produced: a parsed array, or
      nothing (network error, unparsable body, or a body `map` fails on). */
  datatype LoadOutcome = Loaded(items: seq<RawItem>) | LoadFailed

  /** Puts one list response into its collection; a failure only gets
      logged and leaves the collection as it was. */
  function LoadInto(collection: seq<StudentRequest>, outcome: LoadOutcome, src: Source): (r: seq<StudentRequest>)
    ensures outcome.LoadFailed? ==> r == collection
    ensures outcome.Loaded? ==> |r| == |outcome.items|
    ensures outcome.Loaded? ==> forall i :: 0 <= i < |r| ==> r[i] == NormalizeItem(outcome.items[i], i, src)
    ensures outcome.Loaded? ==> forall i :: 0 <= i < |r| ==> r[i].status == src.ForcedStatus()
  {
    match outcome
    case Loaded(items) => Normalize(items, src)
    case LoadFailed => collection
  }

  /** The mount effect: both lists are fetched independently; each one
      fills only its own collection. */
  function InitialLoad(pending: LoadOutcome, accepted: LoadOutcome): (st: State)
    ensures st.requests == LoadInto([], pending, PendingList)
    ensures st.acceptedCards == LoadInto([], accepted, AcceptedHistory)
    ensures st.activeTab == PendingTab && st.searchTerm == ""
    ensures forall i :: 0 <= i < |st.requests| ==> st.requests[i].status == Pending
    ensures forall i :: 0 <= i < |st.acceptedCards| ==> st.acceptedCards[i].status == Printed
  {
    Empty.(requests := LoadInto(Empty.requests, pending, PendingList),
           acceptedCards := LoadInto(Empty.acceptedCards, accepted, AcceptedHistory))
  }

  /** The two initial fetches do not interfere: each collection depends
      only on its own fetch's outcome. */
  lemma InitialLoadIndependent(pending: LoadOutcome, accepted: LoadOutcome, pending': LoadOutcome, accepted': LoadOutcome)
    ensures InitialLoad(pending, accepted).requests == InitialLoad(pending, accepted').requests
    ensures InitialLoad(pending, accepted).acceptedCards == InitialLoad(pending', accepted).acceptedCards
  {
  }

  /** The visible list keeps collection order: for a collection made of two
      parts, it is the visible part of the first followed by that of the second. */
  lemma VisibleKeepsOrder(st: State, front: seq<StudentRequest>, back: seq<StudentRequest>)
    requires Collection(st, st.activeTab) == front + back
    ensures Visible(st) == Filter(front, SearchFilter(st.searchTerm)) + Filter(back, SearchFilter(st.searchTerm))
  {
    FilterConcat(front, back, SearchFilter(st.searchTerm));
  }
}

=== FILE: login.dfy ===
/** The admin login form: the typed id, the error line, the loading flag
    and the route navigated to. `handleSubmit` is split at its `await`:
    `BeginSubmit` runs up to the request, `Settle` runs when it settles. */
module Login {
  import opened Wrappers
  import opened Strings

  datatype Form = Form(adminId: string, error: string, isLoading: bool, navigatedTo: Option<string>)

  /** The body of `POST /api/login`. */
  datatype LoginRequest = LoginRequest(adminId: string)

  /** How the login request settled: `success` true, `success` false with
      the server's `message`, or an exception (network failure or a body
      that is not JSON). */
  datatype LoginOutcome = LoginSuccess | LoginRejected(message: string) | LoginThrew

  /** The form up to the request: the form as left synchronously, and the
      request issued, if any. */
  datatype Submission = Submission(form: Form, request: Option<LoginRequest>)

  const RequiredError: string := "Admin ID is required"
  const GenericError: string := "An error occurred. Please try again."
  const DashboardRoute: string := "/dashboard"

  /** The input's `onChange`: the new text is stored and the error cleared. */
  function EditAdminId(f: Form, text: string): (r: Form)
    ensures r.adminId == text && r.error == ""
    ensures r.isLoading == f.isLoading && r.navigatedTo == f.navigatedTo
  {
    f.(adminId := text, error := "")
  }

  /** `handleSubmit` up to the `await`: a blank id is refused locally;
      otherwise the form goes into its loading state and the untrimmed id
      is sent. */
  function BeginSubmit(f: Form): (s: Submission)
    ensures s.request.None? <==> IsBlank(f.adminId)
    ensures s.request.None? ==> s.form == f.(error := RequiredError)
    ensures s.request.Some? ==> s.request.value.adminId == f.adminId
    ensures s.request.Some? ==> s.form == f.(isLoading := true)
  {
    if Trim(f.adminId) == "" then Submission(f.(error := RequiredError), None)
    else Submission(f.(isLoading := true), Some(LoginRequest(f.adminId)))
  }

  /** `handleSubmit` after the `await`: the outcome's effect, then the
      `finally` that clears the loading flag. */
  function Settle(f: Form, outcome: LoginOutcome): (r: Form)
    ensures !r.isLoading
    ensures r.adminId == f.adminId
    ensures outcome.LoginSuccess? ==> r.navigatedTo == Some(DashboardRoute) && r.error == f.error
    ensures outcome.LoginRejected? ==> r.error == outcome.message && r.navigatedTo == f.navigatedTo
    ensures outcome.LoginThrew? ==> r.error == GenericError && r.navigatedTo == f.navigatedTo
  {
    var afterOutcome :=
      match outcome
      case LoginSuccess => f.(navigatedTo := Some(DashboardRoute))
      case LoginRejected(message) => f.(error := message)
      case LoginThrew => f.(error := GenericError);
    afterOutcome.(isLoading := false)
  }

  /** A whole submission, from the click to the settlement of the request. */
  function HandleSubmit(f: Form, outcome: LoginOutcome): (s: Submission)
    ensures s.request.None? <==> IsBlank(f.adminId)
    ensures s.request.Some? ==> s.request.value == LoginRequest(f.adminId)
    ensures s.form.adminId == f.adminId
    ensures s.request.None? ==>
      s.form.error == RequiredError && s.form.isLoading == f.isLoading && s.form.navigatedTo == f.navigatedTo
    ensures s.request.Some? ==> !s.form.isLoading
    ensures s.request.Some? && outcome.LoginSuccess? ==>
      s.form.navigatedTo == Some(DashboardRoute) && s.form.error == f.error
    ensures s.request.Some? && outcome.LoginRejected? ==>
      s.form.error == outcome.message && s.form.navigatedTo == f.navigatedTo
    ensures s.request.Some? && outcome.LoginThrew? ==>
      s.form.error == GenericError && s.form.navigatedTo == f.navigatedTo
  {
    var started := BeginSubmit(f);
    if started.request.None? then started
    else Submission(Settle(started.form, outcome), started.request)
  }

  /** The loading flag is set exactly while a request is in flight: it is
      raised by a submission that sends a request, and lowered by every
      settlement. A form that was not loading is not loading after a
      complete submission, whatever the outcome. */
  lemma LoadingOnlyInFlight(f: Form, outcome: LoginOutcome)
    requires !f.isLoading
    ensures BeginSubmit(f).form.isLoading <==> BeginSubmit(f).request.Some?
    ensures !HandleSubmit(f, outcome).form.isLoading
  {
  }

  /** A rejection's message replaces any earlier error, and an edit of the
      input clears it again. */
  lemma RejectionThenEdit(f: Form, message: string, text: string)
    requires !IsBlank(f.adminId)
    ensures HandleSubmit(f, LoginRejected(message)).form.error == message
    ensures EditAdminId(HandleSubmit(f, LoginRejected(message)).form, text).error == ""
  {
  }
}

=== FILE: promote.dfy ===
/** Promoting a pending request to the accepted-ID-card collection: the
    `handlePrint` path with its optimistic local patch, and the inline
    "Tap to Inform" handler that re-fetches both lists and falls back to a
    local removal when the re-fetch fails. Every network result is an input. */
module Promote {
  import opened Wrappers
  import opened Seqs
  import opened Requests
  import opened Dashboard

  /** What the handler observes of `POST /api/accept-idcard`: an ok response,
      a non-ok one (with the `error` field of its body, if any), or an
      exception (network failure, or a body that cannot be parsed where the
      handler parses it). */
  datatype AcceptResponse = AcceptOk | AcceptRejected(error: Option<string>) | AcceptThrew

  datatype Toast = Toast(title: string, description: string, destructive: bool)

  const NotFoundToast: Toast := Toast("Error", "Request not found.", true)
  const AcceptedToast: Toast :=
    Toast("Success", "Student ID request has been accepted and stored in acceptedidcards collection.", false)
  const FailedToast: Toast := Toast("Error", "Failed to accept ID card request. Please try again.", true)

  /** The effect of one `handlePrint` call: the new state, the payload
      POSTed (None when no request was issued) and the toast shown. */
  datatype PrintStep = PrintStep(state: State, sent: Option<AcceptPayload>, toast: Toast)

  /** `requests.find(req => req.id === id)`, as the position of the first
      record with that id. */
  function FindIndex(s: seq<StudentRequest>, id: string): (k: Option<nat>)
    ensures k.None? <==> forall j :: 0 <= j < |s| ==> s[j].id != id
    ensures k.Some? ==> k.value < |s| && s[k.value].id == id
    ensures k.Some? ==> forall j :: 0 <= j < k.value ==> s[j].id != id
  {
    if |s| == 0 then None
    else if s[0].id == id then Some(0)
    else match FindIndex(s[1..], id)
      case None => None
      case Some(k) => Some(k + 1)
  }

  /** The optimistic patch: every record with the id gets status printed. */
  function MarkPrinted(s: seq<StudentRequest>, id: string): (r: seq<StudentRequest>)
    ensures |r| == |s|
    ensures forall i :: 0 <= i < |s| && s[i].id == id ==> r[i] == s[i].(status := Printed)
    ensures forall i :: 0 <= i < |s| && s[i].id != id ==> r[i] == s[i]
  {
    seq(|s|, i requires 0 <= i < |s| => if s[i].id == id then s[i].(status := Printed) else s[i])
  }

  /** Patching a second time changes nothing, and ids stay where they were. */
  lemma MarkPrintedIdempotent(s: seq<StudentRequest>, id: string)
    ensures MarkPrinted(MarkPrinted(s, id), id) == MarkPrinted(s, id)
    ensures forall i :: 0 <= i < |s| ==> MarkPrinted(s, id)[i].id == s[i].id
  {
  }

  /** `handlePrint(id)` given the response the accept request gets. */
  function HandlePrint(st: State, id: string, response: AcceptResponse): (r: PrintStep)
    ensures r.state.acceptedCards == st.acceptedCards
    ensures r.state.activeTab == st.activeTab && r.state.searchTerm == st.searchTerm
    // not found: an error toast, no request, no state change
    ensures r.sent.None? <==> forall j :: 0 <= j < |st.requests| ==> st.requests[j].id != id
    ensures r.sent.None? ==> r.state == st && r.toast == NotFoundToast
    // found: the payload of the first record with the id is sent
    ensures r.sent.Some? ==>
      exists k :: 0 <= k < |st.requests| && st.requests[k].id == id
                  && (forall j :: 0 <= j < k ==> st.requests[j].id != id)
                  && r.sent.value == PayloadOf(st.requests[k])
    // a failed request changes nothing
    ensures r.sent.Some? && !response.AcceptOk? ==> r.state == st && r.toast == FailedToast
    // success: every record with the id is printed, everything else is kept
    ensures r.sent.Some? && response.AcceptOk? ==>
      && r.toast == AcceptedToast
      && |r.state.requests| == |st.requests|
      && (forall i :: 0 <= i < |st.requests| && st.requests[i].id == id ==>
            r.state.requests[i] == st.requests[i].(status := Printed))
      && (forall i :: 0 <= i < |st.requests| && st.requests[i].id != id ==>
            r.state.requests[i] == st.requests[i])
  {
    match FindIndex(st.requests, id)
    case None => PrintStep(st, None, NotFoundToast)
    case Some(k) =>
      var payload := PayloadOf(st.requests[k]);
      if response.AcceptOk? then
        PrintStep(st.(requests := MarkPrinted(st.requests, id)), Some(payload), AcceptedToast)
      else
        PrintStep(st, Some(payload), FailedToast)
  }

  // -----------------------------------------------------------------------
  // The inline "Tap to Inform" handler
  // -----------------------------------------------------------------------

  /** What one re-fetch of a list produced: a parsed array from an ok
      response, a non-ok response (skipped), or an exception (network
      failure, or a body that cannot be parsed and mapped). */
  datatype RefreshOutcome = Refreshed(items: seq<RawItem>) | RefreshNotOk | RefreshThrew

  const MoveFailedAlert: string := "Error while moving request."

  /** The effect of one click: the new state, the payload POSTed, the alert
      shown (if any) and whether the success popup opens. */
  datatype InformStep = InformStep(state: State, sent: AcceptPayload, alert: Option<string>, successPopup: bool)

  function HasOtherId(id: string): StudentRequest -> bool {
    (r: StudentRequest) => r.id != id
  }

  /** The fallback removal: `prev.filter(r => r.id !== id)`. */
  function RemoveId(s: seq<StudentRequest>, id: string): (r: seq<StudentRequest>)
    ensures forall i :: 0 <= i < |r| ==> r[i].id != id
    ensures forall x :: x in r <==> x in s && x.id != id
    ensures forall x :: multiset(r)[x] == (if x.id != id then multiset(s)[x] else 0)
  {
    Filter(s, HasOtherId(id))
  }

  /** The fallback removal keeps the remaining records in order: removing
      from two parts is removing from each and joining the results. */
  lemma RemoveIdKeepsOrder(s: seq<StudentRequest>, t: seq<StudentRequest>, id: string)
    ensures RemoveId(s + t, id) == RemoveId(s, id) + RemoveId(t, id)
  {
    FilterConcat(s, t, HasOtherId(id));
  }

  /** Removing an id that is not there leaves the collection as it was. */
  lemma RemoveAbsentId(s: seq<StudentRequest>, id: string)
    requires forall i :: 0 <= i < |s| ==> s[i].id != id
    ensures RemoveId(s, id) == s
  {
    FilterKeepsAll(s, HasOtherId(id));
  }

  /** The alert for a non-ok accept response: `errorData.error || fallback`. */
  function RejectionAlert(error: Option<string>): (a: string)
    ensures error.Some? && error.value != "" ==> a == error.value
    ensures error.None? || error.value == "" ==> a == MoveFailedAlert
  {
    if error.Some? && error.value != "" then error.value else MoveFailedAlert
  }

  /** The refresh after a successful accept: the pending list is re-fetched
      first, then the accepted list; the first exception stops the refresh
      and removes `id` from whatever `requests` holds at that moment. */
  function Resync(st: State, id: string, pending: RefreshOutcome, accepted: RefreshOutcome): (r: State)
    ensures r.activeTab == st.activeTab && r.searchTerm == st.searchTerm
    // the pending re-fetch throws: nothing refreshed, the id removed locally
    ensures pending.RefreshThrew? ==>
      r.requests == RemoveId(st.requests, id) && r.acceptedCards == st.acceptedCards
    // otherwise `requests` is the fresh list (or the old one after a non-ok
    // response), with the id removed if the accepted re-fetch then throws
    ensures !pending.RefreshThrew? ==>
      var base := if pending.Refreshed? then Normalize(pending.items, PendingList) else st.requests;
      && (accepted.RefreshThrew? ==> r.requests == RemoveId(base, id))
      && (!accepted.RefreshThrew? ==> r.requests == base)
    ensures !pending.RefreshThrew? && accepted.Refreshed? ==>
      r.acceptedCards == Normalize(accepted.items, AcceptedHistory)
    ensures pending.RefreshThrew? || !accepted.Refreshed? ==> r.acceptedCards == st.acceptedCards
  {
    match pending
    case RefreshThrew => st.(requests := RemoveId(st.requests, id))
    case RefreshNotOk => ResyncAccepted(st, id, accepted)
    case Refreshed(items) => ResyncAccepted(st.(requests := Normalize(items, PendingList)), id, accepted)
  }

  /** The second half of the refresh: the accepted list. */
  function ResyncAccepted(st: State, id: string, accepted: RefreshOutcome): (r: State)
    ensures r.activeTab == st.activeTab && r.searchTerm == st.searchTerm
    ensures accepted.RefreshNotOk? ==> r == st
    ensures accepted.RefreshThrew? ==>
      && r.acceptedCards == st.acceptedCards
      && r.requests == RemoveId(st.requests, id)
    ensures accepted.Refreshed? ==>
      && r.requests == st.requests
      && |r.acceptedCards| == |accepted.items|
      && (forall i :: 0 <= i < |r.acceptedCards| ==> r.acceptedCards[i] == NormalizeItem(accepted.items[i], i, AcceptedHistory))
      && (forall i :: 0 <= i < |r.acceptedCards| ==> r.acceptedCards[i].status == Printed)
  {
    match accepted
    case RefreshThrew => st.(requests := RemoveId(st.requests, id))
    case RefreshNotOk => st
    case Refreshed(items) => st.(acceptedCards := Normalize(items, AcceptedHistory))
  }

  /** The inline accept handler for the card showing `request`. */
  function Inform(st: State, request: StudentRequest, response: AcceptResponse,
                  pending: RefreshOutcome, accepted: RefreshOutcome): (r: InformStep)
    ensures r.sent == PayloadOf(request)
    ensures response.AcceptThrew? ==> r.state == st && r.alert == Some(MoveFailedAlert) && !r.successPopup
    ensures response.AcceptRejected? ==>
      r.state == st && r.alert == Some(RejectionAlert(response.error)) && !r.successPopup
    ensures response.AcceptOk? ==>
      r.state == Resync(st, request.id, pending, accepted) && r.alert.None? && r.successPopup
  {
    match response
    case AcceptThrew => InformStep(st, PayloadOf(request), Some(MoveFailedAlert), false)
    case AcceptRejected(error) => InformStep(st, PayloadOf(request), Some(RejectionAlert(error)), false)
    case AcceptOk => InformStep(Resync(st, request.id, pending, accepted), PayloadOf(request), None, true)
  }

  /** When both re-fetches succeed, both collections are replaced by the
      fresh, normalised lists: the pending records all pending, the
      accepted ones all printed. */
  lemma InformFullResync(st: State, request: StudentRequest, p: seq<RawItem>, a: seq<RawItem>)
    ensures var r := Inform(st, request, AcceptOk, Refreshed(p), Refreshed(a)).state;
      && r.requests == Normalize(p, PendingList)
      && r.acceptedCards == Normalize(a, AcceptedHistory)
      && (forall i :: 0 <= i < |r.requests| ==> r.requests[i].status == Pending)
      && (forall i :: 0 <= i < |r.acceptedCards| ==> r.acceptedCards[i].status == Printed)
  {
  }

  /** Whenever a re-fetch throws, the promoted id is gone from `requests`
      afterwards; when it is the pending re-fetch that throws, every other
      local record stays. */
  lemma InformFallbackDropsId(st: State, request: StudentRequest, pending: RefreshOutcome, accepted: RefreshOutcome)
    requires pending.RefreshThrew? || accepted.RefreshThrew?
    ensures forall x :: x in Inform(st, request, AcceptOk, pending, accepted).state.requests ==> x.id != request.id
    ensures pending.RefreshThrew? ==>
      forall x :: x in st.requests && x.id != request.id ==> x in Inform(st, request, AcceptOk, pending, accepted).state.requests
  {
  }
}

=== FILE: requests.dfy ===
/** Student ID-card requests: the raw records the backend returns, the
    normalised `StudentRequest` the dashboard keeps, and the promotion
    payload sent when a request is accepted. */
module Requests {
  import opened Wrappers
  import opened Strings

  /** The `"pending" | "printed"` status of a request. */
  datatype Status = Pending | Printed

  /** The two list endpoints. The one that serves the pending requests is
      called `/api/printed` by the backend. */
  datatype Source = PendingList | AcceptedHistory {

    /** The status every record read from this endpoint is given. */
    function ForcedStatus(): Status {
      match this
      case PendingList => Pending
      case AcceptedHistory => Printed
    }
  }

  /** One item of a list response, as far as the dashboard reads it.
      `status` is whatever the backend sent; normalisation never reads it. */
  datatype RawItem = RawItem(
    mongoId: Option<string>,
    registerNumber: string,
    name: string,
    dob: string,
    department: string,
    year: string,
    section: string,
    libraryCode: string,
    reason: string,
    status: Option<string>,
    createdAt: Option<string>)

  datatype StudentRequest = StudentRequest(
    id: string,
    registerNumber: string,
    name: string,
    dob: string,
    department: string,
    year: string,
    section: string,
    libraryCode: string,
    reason: string,
    status: Status,
    submittedDate: string,
    createdAt: Option<string>)

  /** The body of `POST /api/accept-idcard`: the eight submitted fields. */
  datatype AcceptPayload = AcceptPayload(
    registerNumber: string,
    name: string,
    dob: string,
    department: string,
    year: string,
    section: string,
    libraryCode: string,
    reason: string)

  const NotAvailable: string := "N/A"

  /** A JavaScript `_id` is used only when it is truthy, i.e. a non-empty string. */
  predicate HasUsableId(item: RawItem) {
    item.mongoId.Some? && item.mongoId.value != ""
  }

  /** `createdAt?.split("T")[0] || "N/A"`: the date part of the timestamp,
      or "N/A" when there is no timestamp or its date part is empty. */
  function SubmittedDate(createdAt: Option<string>): (d: string)
    ensures createdAt.None? ==> d == NotAvailable
    ensures createdAt.Some? && (createdAt.value == "" || createdAt.value[0] == 'T') ==> d == NotAvailable
    ensures createdAt.Some? && createdAt.value != "" && createdAt.value[0] != 'T' ==>
      && 0 < |d| <= |createdAt.value|
      && d == createdAt.value[..|d|]
      && 'T' !in d
      && (|d| == |createdAt.value| || createdAt.value[|d|] == 'T')
  {
    match createdAt
    case None => NotAvailable
    case Some(stamp) =>
      var datePart := PrefixBefore(stamp, 'T');
      if datePart == "" then NotAvailable else datePart
  }

  /** For an ISO-8601 stamp `date + "T" + time` the submitted date is the
      date part, whatever follows the first `T`. */
  lemma {:induction false} SubmittedDateOfIsoStamp(date: string, time: string)
    requires date != "" && 'T' !in date
    ensures SubmittedDate(Some(date + "T" + time)) == date
  {
    PrefixBeforeSeparator(date, 'T', time);
  }

  /** Maps the item at position `index` of a response from `src`. */
  function NormalizeItem(item: RawItem, index: nat, src: Source): (r: StudentRequest)
    ensures HasUsableId(item) ==> r.id == item.mongoId.value
    ensures !HasUsableId(item) ==> AllDigits(r.id) && ParseNat(r.id) == index && (|r.id| > 1 ==> r.id[0] != '0')
    ensures r.status == src.ForcedStatus()
    ensures r.submittedDate == SubmittedDate(item.createdAt)
    ensures r.createdAt == item.createdAt
    ensures r.registerNumber == item.registerNumber && r.name == item.name && r.dob == item.dob
    ensures r.department == item.department && r.year == item.year && r.section == item.section
    ensures r.libraryCode == item.libraryCode && r.reason == item.reason
  {
    NatToStringRoundTrip(index);
    StudentRequest(
      if HasUsableId(item) then item.mongoId.value else NatToString(index),
      item.registerNumber, item.name, item.dob, item.department, item.year,
      item.section, item.libraryCode, item.reason,
      src.ForcedStatus(),
      SubmittedDate(item.createdAt),
      item.createdAt)
  }

  /** `data.map((item, index) => ...)` over a list response from `src`. */
  function Normalize(items: seq<RawItem>, src: Source): (rs: seq<StudentRequest>)
    ensures |rs| == |items|
    ensures forall i :: 0 <= i < |rs| ==> rs[i] == NormalizeItem(items[i], i, src)
    ensures forall i :: 0 <= i < |rs| ==> rs[i].status == src.ForcedStatus()
  {
    seq(|items|, i requires 0 <= i < |items| => NormalizeItem(items[i], i, src))
  }

  /** The payload built from a request. */
  function PayloadOf(r: StudentRequest): (p: AcceptPayload)
    ensures p.registerNumber == r.registerNumber && p.name == r.name && p.dob == r.dob
    ensures p.department == r.department && p.year == r.year && p.section == r.section
    ensures p.libraryCode == r.libraryCode && p.reason == r.reason
  {
    AcceptPayload(r.registerNumber, r.name, r.dob, r.department, r.year,
                  r.section, r.libraryCode, r.reason)
  }

  /** The two requests agree on every field a student submits. */
  predicate SameSubmittedFields(a: StudentRequest, b: StudentRequest) {
    && a.registerNumber == b.registerNumber && a.name == b.name && a.dob == b.dob
    && a.department == b.department && a.year == b.year && a.section == b.section
    && a.libraryCode == b.libraryCode && a.reason == b.reason
  }

  /** The payload carries exactly the submitted fields: neither the id, the
      status nor the dates can change it, and any submitted field can. */
  lemma PayloadExactlySubmittedFields(a: StudentRequest, b: StudentRequest)
    ensures PayloadOf(a) == PayloadOf(b) <==> SameSubmittedFields(a, b)
  {
  }

  /** A normalised record still carries the submitted fields of its raw
      item, whatever its position and its source. */
  lemma NormalizeKeepsSubmittedFields(items: seq<RawItem>, src: Source, i: nat)
    requires i < |items|
    ensures PayloadOf(Normalize(items, src)[i])
         == AcceptPayload(items[i].registerNumber, items[i].name, items[i].dob, items[i].department,
                          items[i].year, items[i].section, items[i].libraryCode, items[i].reason)
  {
  }

  /** When no item carries a usable `_id`, the positional fallback ids are
      pairwise distinct. */
  lemma FallbackIdsDistinct(items: seq<RawItem>, src: Source)
    requires forall i :: 0 <= i < |items| ==> !HasUsableId(items[i])
    ensures forall i, j :: 0 <= i < j < |items| ==> Normalize(items, src)[i].id != Normalize(items, src)[j].id
  {
    var rs := Normalize(items, src);
    forall i, j | 0 <= i < j < |items|
      ensures rs[i].id != rs[j].id
    {
      assert ParseNat(rs[i].id) == i && ParseNat(rs[j].id) == j;
    }
  }
}

=== FILE: seqs.dfy ===
/** `Array.prototype.filter` on sequences, and the facts about it that the
    dashboard's visible list and its fallback removal rely on. */
module Seqs {

  /** Keeps, in order, the elements of `s` on which `keep` holds. */
  function Filter<T(==,!new)>(s: seq<T>, keep: T -> bool): (r: seq<T>)
    ensures |r| <= |s|
    ensures forall i :: 0 <= i < |r| ==> keep(r[i])
    ensures forall x :: x in r <==> x in s && keep(x)
    ensures forall x :: multiset(r)[x] == if keep(x) then multiset(s)[x] else 0
  {
    if |s| == 0 then []
    else
      assert s == [s[0]] + s[1..];
      if keep(s[0]) then [s[0]] + Filter(s[1..], keep) else Filter(s[1..], keep)
  }

  /** Filtering distributes over concatenation, so the kept elements stay
      in their original order. */
  lemma {:induction false} FilterConcat<T(!new)>(s: seq<T>, t: seq<T>, keep: T -> bool)
    ensures Filter(s + t, keep) == Filter(s, keep) + Filter(t, keep)
  {
    if |s| == 0 {
      assert s + t == t;
    } else {
      assert (s + t)[1..] == s[1..] + t;
      FilterConcat(s[1..], t, keep);
    }
  }

  /** When every element is kept, filtering returns the sequence itself. */
  lemma {:induction false} FilterKeepsAll<T(!new)>(s: seq<T>, keep: T -> bool)
    requires forall i :: 0 <= i < |s| ==> keep(s[i])
    ensures Filter(s, keep) == s
  {
    if |s| > 0 {
      FilterKeepsAll(s[1..], keep);
    }
  }

  /** Filtering twice with the same test is filtering once. */
  lemma FilterIdempotent<T(!new)>(s: seq<T>, keep: T -> bool)
    ensures Filter(Filter(s, keep), keep) == Filter(s, keep)
  {
    FilterKeepsAll(Filter(s, keep), keep);
  }

  /** Tests that agree on every element of `s` filter it alike. */
  lemma {:induction false} FilterCongruent<T(!new)>(s: seq<T>, keep: T -> bool, keep': T -> bool)
    requires forall i :: 0 <= i < |s| ==> keep(s[i]) == keep'(s[i])
    ensures Filter(s, keep) == Filter(s, keep')
  {
    if |s| > 0 {
      FilterCongruent(s[1..], keep, keep');
    }
  }
}

=== FILE: strings.dfy ===
/** The few JavaScript string operations the dashboard and the login form
    rely on: ASCII lower-casing, substring search, `split` on one character,
    decimal rendering of an array index and `trim`. */
module Strings {

  // ---------------------------------------------------------------------
  // Lower-casing (`String.prototype.toLowerCase`, ASCII letters only)
  // ---------------------------------------------------------------------

  predicate IsUpperAscii(c: char) {
    'A' <= c <= 'Z'
  }

  /** Lower-cases an ASCII capital; every other character is kept. */
  function LowerChar(c: char): (d: char)
    ensures !IsUpperAscii(d)
    ensures !IsUpperAscii(c) ==> d == c
    ensures IsUpperAscii(c) ==> 'a' <= d <= 'z' && d as int - c as int == 'a' as int - 'A' as int
  {
    if IsUpperAscii(c) then (c as int - 'A' as int + 'a' as int) as char else c
  }

  function Lower(s: string): (r: string)
    ensures |r| == |s|
    ensures forall i :: 0 <= i < |s| ==> r[i] == LowerChar(s[i])
  {
    seq(|s|, i requires 0 <= i < |s| => LowerChar(s[i]))
  }

  // ---------------------------------------------------------------------
  // Substring search (`String.prototype.includes`)
  // ---------------------------------------------------------------------

  /** `sub` occurs in `s` starting at position `i`. */
  predicate OccursAt(s: string, sub: string, i: int) {
    0 <= i && i + |sub| <= |s| && s[i..i + |sub|] == sub
  }

  /** Scans `s` left to right for an occurrence of `sub`; the empty string
      occurs in every string. */
  function Contains(s: string, sub: string): (found: bool)
    ensures sub == "" ==> found
    ensures found ==> |sub| <= |s|
    decreases |s|
  {
    if |sub| > |s| then false
    else if s[..|sub|] == sub then true
    else Contains(s[1..], sub)
  }

  /** The scan finds `sub` exactly when `sub` occurs at some position. */
  lemma {:induction false} ContainsIffOccurs(s: string, sub: string)
    ensures Contains(s, sub) <==> exists i :: OccursAt(s, sub, i)
    decreases |s|
  {
    if |sub| > |s| {
      forall i | OccursAt(s, sub, i)
        ensures false
      {
      }
    } else if s[..|sub|] == sub {
      assert OccursAt(s, sub, 0);
    } else {
      var t := s[1..];
      ContainsIffOccurs(t, sub);
      if Contains(t, sub) {
        var j :| OccursAt(t, sub, j);
        assert s[j + 1..j + 1 + |sub|] == t[j..j + |sub|];
        assert OccursAt(s, sub, j + 1);
      } else {
        forall i | OccursAt(s, sub, i)
          ensures false
        {
          assert i != 0;
          assert t[i - 1..i - 1 + |sub|] == s[i..i + |sub|];
          assert OccursAt(t, sub, i - 1);
        }
      }
    }
  }

  /** The empty search term occurs in every string. */
  lemma ContainsEmpty(s: string)
    ensures Contains(s, "")
  {
    assert s[..0] == "";
  }

  // ---------------------------------------------------------------------
  // `split(sep)[0]`: the text before the first separator
  // ---------------------------------------------------------------------

  /** The text of `s` before the first `sep`, or all of `s` when it holds no
      `sep` -- the first element of `s.split(sep)`. */
  function PrefixBefore(s: string, sep: char): (r: string)
    ensures |r| <= |s| && r == s[..|r|]
    ensures sep !in r
    ensures |r| < |s| ==> s[|r|] == sep
  {
    if |s| == 0 then ""
    else if s[0] == sep then ""
    else [s[0]] + PrefixBefore(s[1..], sep)
  }

  /** Splitting `a + sep + b` at its first `sep` gives back `a` when `a`
      holds no `sep`. */
  lemma {:induction false} PrefixBeforeSeparator(a: string, sep: char, b: string)
    requires sep !in a
    ensures PrefixBefore(a + [sep] + b, sep) == a
  {
    var s := a + [sep] + b;
    if |a| > 0 {
      assert s[0] == a[0];
      assert s[1..] == a[1..] + [sep] + b;
      PrefixBeforeSeparator(a[1..], sep, b);
      assert a == [a[0]] + a[1..];
    }
  }

  // ---------------------------------------------------------------------
  // Decimal rendering of a natural number (`Number.prototype.toString`)
  // ---------------------------------------------------------------------

  predicate IsDigit(c: char) {
    '0' <= c <= '9'
  }

  predicate AllDigits(s: string) {
    forall i :: 0 <= i < |s| ==> IsDigit(s[i])
  }

  function DigitChar(d: nat): (c: char)
    requires d < 10
    ensures IsDigit(c)
    ensures c as int - '0' as int == d
  {
    ('0' as int + d) as char
  }

  function DigitValue(c: char): (d: nat)
    requires IsDigit(c)
    ensures d < 10
  {
    c as int - '0' as int
  }

  /** The decimal digits of `n`, most significant first, without leading zeros. */
  function NatToString(n: nat): (s: string)
    ensures |s| >= 1
    ensures AllDigits(s)
    ensures |s| > 1 ==> s[0] != '0'
  {
    if n < 10 then [DigitChar(n)]
    else NatToString(n / 10) + [DigitChar(n % 10)]
  }

  /** Reads a string of decimal digits back as a number. */
  function ParseNat(s: string): nat
    requires AllDigits(s)
  {
    if |s| == 0 then 0
    else ParseNat(s[..|s| - 1]) * 10 + DigitValue(s[|s| - 1])
  }

  /** Rendering a number and reading it back gives the number. */
  lemma {:induction false} NatToStringRoundTrip(n: nat)
    ensures ParseNat(NatToString(n)) == n
  {
    var s := NatToString(n);
    if n < 10 {
      assert s[..|s| - 1] == "";
    } else {
      assert s[..|s| - 1] == NatToString(n / 10);
      NatToStringRoundTrip(n / 10);
    }
  }

  // ---------------------------------------------------------------------
  // `String.prototype.trim`
  // ---------------------------------------------------------------------

  /** ECMAScript WhiteSpace and LineTerminator code points: what `trim` strips. */
  predicate IsJsWhitespace(c: char) {
    || c == '\t' || c == '\n' || c == '\U{000B}' || c == '\U{000C}' || c == '\r'
    || c == ' ' || c == '\U{00A0}' || c == '\U{1680}'
    || ('\U{2000}' <= c <= '\U{200A}')
    || c == '\U{2028}' || c == '\U{2029}' || c == '\U{202F}' || c == '\U{205F}'
    || c == '\U{3000}' || c == '\U{FEFF}'
  }

  /** Every character of `s` is white space (in particular, `s` may be empty). */
  predicate IsBlank(s: string) {
    forall i :: 0 <= i < |s| ==> IsJsWhitespace(s[i])
  }

  /** Drops the leading white space. */
  function TrimStart(s: string): (r: string)
    ensures |r| <= |s| && r == s[|s| - |r|..]
    ensures forall i :: 0 <= i < |s| - |r| ==> IsJsWhitespace(s[i])
    ensures |r| > 0 ==> !IsJsWhitespace(r[0])
  {
    if |s| > 0 && IsJsWhitespace(s[0]) then TrimStart(s[1..]) else s
  }

  /** Drops the trailing white space. */
  function TrimEnd(s: string): (r: string)
    ensures |r| <= |s| && r == s[..|r|]
    ensures forall i :: |r| <= i < |s| ==> IsJsWhitespace(s[i])
    ensures |r| > 0 ==> !IsJsWhitespace(r[|r| - 1])
  {
    if |s| > 0 && IsJsWhitespace(s[|s| - 1]) then TrimEnd(s[..|s| - 1]) else s
  }

  /** Drops the white space at both ends: the result is the slice of `s`
      between a blank prefix and a blank suffix, empty exactly for a blank
      string, and otherwise starting and ending with a non-blank character. */
  function Trim(s: string): (r: string)
    ensures |r| <= |s|
    ensures exists a :: 0 <= a && a + |r| <= |s| && r == s[a..a + |r|] && IsBlank(s[..a]) && IsBlank(s[a + |r|..])
    ensures r == "" <==> IsBlank(s)
    ensures |r| > 0 ==> !IsJsWhitespace(r[0]) && !IsJsWhitespace(r[|r| - 1])
  {
    var t := TrimStart(s);
    var r := TrimEnd(t);
    SliceBetweenBlanks(s, t, r);
    r
  }

  /** A suffix `t` of `s` after a blank prefix, starting with a non-blank
      character, and a prefix `r` of `t` before a blank suffix, ending with a
      non-blank character: `r` is a slice of `s` between two blank parts, and
      empty exactly when `s` is blank. */
  lemma SliceBetweenBlanks(s: string, t: string, r: string)
    requires |t| <= |s| && t == s[|s| - |t|..]
    requires forall i :: 0 <= i < |s| - |t| ==> IsJsWhitespace(s[i])
    requires |t| > 0 ==> !IsJsWhitespace(t[0])
    requires |r| <= |t| && r == t[..|r|]
    requires forall i :: |r| <= i < |t| ==> IsJsWhitespace(t[i])
    requires |r| > 0 ==> !IsJsWhitespace(r[|r| - 1])
    ensures exists a :: 0 <= a && a + |r| <= |s| && r == s[a..a + |r|] && IsBlank(s[..a]) && IsBlank(s[a + |r|..])
    ensures r == "" <==> IsBlank(s)
    ensures |r| > 0 ==> !IsJsWhitespace(r[0]) && !IsJsWhitespace(r[|r| - 1])
  {
    var a := |s| - |t|;
    var b := a + |r|;
    assert r == s[a..b];
    if |r| > 0 {
      assert r[0] == t[0] == s[a];
    }
    assert IsBlank(s[..a]) by {
      forall i | 0 <= i < a
        ensures IsJsWhitespace(s[..a][i])
      {
        assert s[..a][i] == s[i];
      }
    }
    assert IsBlank(s[b..]) by {
      forall i | 0 <= i < |s| - b
        ensures IsJsWhitespace(s[b..][i])
      {
        assert s[b..][i] == t[|r| + i];
      }
    }
  }

  /** Padding a trimmed core with white space on both sides and trimming
      again gives back the core. */
  lemma TrimPadded(front: string, core: string, back: string)
    requires IsBlank(front) && IsBlank(back)
    requires |core| > 0 ==> !IsJsWhitespace(core[0]) && !IsJsWhitespace(core[|core| - 1])
    ensures Trim(front + core + back) == core
  {
    var s := front + core + back;
    var t := TrimStart(s);
    if |core| == 0 {
      assert IsBlank(s);
    } else {
      assert s[|front|] == core[0];
      assert t == core + back;
      var r := TrimEnd(t);
      assert t[|core| - 1] == core[|core| - 1];
      assert r == t[..|core|] == core;
    }
  }
}

=== FILE: wrappers.dfy ===
/** Optional values: a JavaScript value that may be `null` or `undefined`
    is `None`, a present value is `Some`. */
module Wrappers {

  datatype Option<+T> = None | Some(value: T)
}
